=== FILE: README.md ===
# ibm9510 statistics loader: a Dafny model

`ibm9510.py` collects I/O statistics from an IBM storage array. It copies the
array's whole `/dumps/iostats/` directory into a scratch directory and keeps
the regular files whose names contain `Nv_stats_`. For each virtual disk
(`vdsk`) it turns every such XML file into six raw samples, one per counter (`ro`,
`wo`, `rb`, `wb`, `rl`, `wl`), and appends them to a temporary staging table
named after the host. It then runs `update_data`:

1. It appends one baseline row per series of the history table `ibm9150c2` to
   the staging table. The baseline has timestamp 0, the least value and the
   greatest version.
2. It deduplicates the staging table by sample, keeping the greatest version.
3. It orders the result by (metric, hostname, volume, timestamp).
4. It divides the running difference of the values by the running difference
   of the timestamps.
5. It writes the distinct rows with a positive timestamp to the rate table
   `ibm9150d2`.

The model has these modules:

- `Parser` models `parse_data`. The XML document and the clock reading are
  parameters. So are the date conversion `str_to_unixtime` and Python's
  `float()`, as partial functions that give `None` where the source raises.
- `Names` models the table name, the last `-`-separated part of the hostname.
  It uses Python's `str.split` semantics, with the join as its inverse.
- `Listing` models `get_list_files` over an explicit directory listing.
- `Records`, `Aggregate`, `Sorting` and `Delta` model the SQL of
  `update_data` as pure functions over sequences of rows:
  - the `GROUP BY` queries;
  - the `ORDER BY`, as an insertion sort on a total preorder;
  - ClickHouse's `runningDifference`;
  - the final `GROUP BY ... HAVING`.
- `Transform` composes these into `UpdateData` over a snapshot of the three
  tables.
- `Etl` composes `main` from the parsed files onwards.
- `Examples` holds worked cases proved about the model, which pin down its
  behaviour on small inputs.

Behaviour of the code worth knowing:

- The baseline query reads `ibm9150c2` and inserts into the per-host staging
  table. No statement of the program writes `ibm9150c2`.
- The first sample of every series IS written to the rate table.
  - When the series has no history and sorts first in the ordered result,
    its rate comes from `runningDifference`'s 0 for the first row of the
    result, i.e. 0/0, which is undefined (`Examples.FirstRowExample`).
  - When the series has no history and does not sort first, its rate is
    taken against the last row of the preceding series (next bullet).
  - When the series has history, its rate is taken against the baseline row at timestamp 0
    (`Examples.BaselineAnchorExample`).
- `runningDifference` runs over the whole ordered result, not per series. A
  series without history is differenced against the last row of the
  preceding series (`Examples.CrossSeriesExample`).
  `Transform.RatesStayWithinSeries` gives a condition under which this cannot
  happen: every staged series has history.
- The version is a clock read per `parse_data` call, so per file rather than
  per run. The model passes one version with each file.

## Model

| member | source | states |
|---|---|---|
| Parser.ParseDataSpec | ibm9510.py:38-61 | A file yields rows exactly when the root element's `timestamp` attribute (empty when absent) converts to a time and every counter of every `vdsk` parses as a number. The rows then come six per `vdsk`, in document order and counter order `ro, wo, rb, wb, rl, wl`. Each row has the given hostname, the `vdsk`'s `id` (empty when absent), the converted root timestamp, the parsed value and the file's version. |
| Names.SplitJoinRoundTrip | ibm9510.py:247 | Joining the parts of `split('-')` with `-` gives back the hostname, and no part contains `-`. |
| Names.TableNameSpec | ibm9510.py:247 | The table name contains no `-` and is a suffix of the hostname. When it is shorter, a `-` directly precedes it. When the hostname has no `-`, the name is the whole hostname. |
| Listing.ContainsIffOccurs | ibm9510.py:226 | The substring test `word in f` holds exactly when `word` occurs at some position of `f`. |
| Listing.ListFilesMembership | ibm9510.py:222-228 | A path is returned exactly when it is the directory joined with the name of an entry that is a regular file and whose name contains the word. |
| Listing.ListFilesAppend | ibm9510.py:222-228 | Listing a concatenation of entries returns the two results concatenated, so the result follows the listing's order. |
| Listing.ListFilesEmptyWord | ibm9510.py:235 | With the empty word, as `rm_files` calls it, every regular file of the directory is returned. |
| Aggregate.BaselineSpec | ibm9510.py:119-133 | The baseline has exactly one row per series present in the history table and no others. Each row has timestamp 0. Its value is the least, and its version the greatest, found for its series in the history table, and both occur there. |
| Aggregate.VersionDedupSpec | ibm9510.py:155-168 | The dedup query has one row per distinct sample (series, timestamp, value). Each row's version occurs for that sample in the input, and no input row of that sample has a greater version. |
| Aggregate.ReingestKeepsSamples | ibm9510.py:155-168 | Appending rows whose samples are already present (a re-ingested file with a newer version) leaves the set of samples and the number of rows of the dedup query unchanged. |
| Aggregate.DistinctSpec | ibm9510.py:176-182 | The outer `GROUP BY` over all columns yields each input row once, with no duplicates and nothing new. |
| Sorting.SortByKeySpec | ibm9510.py:169-173 | The ordered result is sorted by (metric, hostname, volume, timestamp) and is a permutation of its input. |
| Sorting.AnchoredPredecessor | ibm9510.py:169-173 | In a sorted result, a positive-timestamp row whose series has a timestamp-0 row is directly preceded by a row of its own series. |
| Records.KeyLeTransitive | ibm9510.py:169-173 | The ordering key is transitive. |
| Records.KeyLeTotal | ibm9510.py:169-173 | Any two rows are comparable under the ordering key. |
| StringOrder.LexLeAntisymmetric | ibm9510.py:170-172 | Byte-wise string order is antisymmetric. |
| StringOrder.LexLeTransitive | ibm9510.py:170-172 | Byte-wise string order is transitive. |
| StringOrder.LexLeTotal | ibm9510.py:170-172 | Byte-wise string order is total. |
| Delta.RunningDifferenceTelescopes | ibm9510.py:151 | `runningDifference` starts at 0, and the first element plus the sum of the differences up to position k is the element at k. |
| Delta.DeltasSpec | ibm9510.py:146-152 | The rate query keeps every row's identity, timestamp and version. The first row's rate is undefined. Each later row's rate is its value difference divided by its timestamp difference against the row before it, and is undefined when the timestamps are equal. |
| Delta.WrittenSpec | ibm9510.py:176-184 | The written rows have no duplicates. A row is written exactly when the rate query produced it and its timestamp is positive. |
| Transform.UpdateDataSpec | ibm9510.py:118-186 | `update_data` leaves the history table unchanged. It extends the staging table by exactly the history baseline, and only appends to the rate table. The appended rows are distinct and none has timestamp 0. |
| Transform.RatesStayWithinSeries | ibm9510.py:119-184 | When every staged series has history, every written rate is computed from an ordered row and the row right before it, and both belong to the same series. |
| Transform.ZeroRowsAreHistoryMinima | ibm9510.py:119-173 | When all staged samples have real timestamps, every timestamp-0 row of the ordered result carries its series' least historical value and greatest historical version. |
| Etl.LoadAllSpec | ibm9510.py:252-255 | Loading the files succeeds exactly when each one parses: its root timestamp converts and all its counters are numbers. It yields six rows per `vdsk` over all files, and all of them carry the host's name. |
| Etl.RunSpec | ibm9510.py:243-256 | Provided every ClickHouse statement succeeds, a run completes exactly when every file parses. It then uses the table name derived from the hostname and leaves the history table unchanged. The staging table holds the loaded rows, six per `vdsk`, followed by exactly the history baseline. The rate table only grows, by distinct rows with positive timestamps. |
| Examples.MinWinsExample | ibm9510.py:119-133 | Two history rows of one series give one baseline row with the smaller value and the larger version. |
| Examples.FirstRowExample | ibm9510.py:136-184 | Without history, the first sample is written with an undefined rate and the second with (50-10)/(110-100) = 4. |
| Examples.BaselineAnchorExample | ibm9510.py:118-186 | With history, the first sample's rate is taken against the baseline row at timestamp 0. |
| Examples.CrossSeriesExample | ibm9510.py:146-173 | Without history, the first sample of the second series is differenced against the last sample of the first series. |

## Left out

- Command-line parsing (`get_arguments`) and the JSON connection settings (`opendb`): configuration, not logic.
- The database connection, `closedb`, `create_table`, `insert_data` and `OPTIMIZE TABLE` are modelled as the table contents they produce.
- `OPTIMIZE TABLE ibm9150d2` is assumed to leave the rate table's contents unchanged. The engine of `ibm9150d2` is not shown in the source. If it is a merging engine such as ReplacingMergeTree, `OPTIMIZE` may merge away rows that share its sorting key. The "only appends to the rate table" clauses of `Transform.UpdateDataSpec` and `Etl.RunSpec` hold under this assumption only.
- `cp_files` (SSH/SCP copy, including its swallowed `SCPException`) is not modelled. The model starts from the directory listing the copy leaves behind.
- The error path where the copy fails and leaves no directory is not modelled. There `os.listdir` raises and the run aborts before `update_data`.
- Etl.Run takes the parsed files as a parameter. The selection `get_list_files(to_dir, 'Nv_stats_')` that produces them is modelled separately by `Listing.ListFiles`; the two are not composed into one function, because opening and parsing a path is I/O.
- `get_to_dir` (a name built from the process id) is not modelled. The directory is a parameter.
- `rm_files` deletes files and is not modelled. Only its call to `get_list_files` with the empty word is stated (`Listing.ListFilesEmptyWord`).
- The XML parser, `time.time()`, the date format of `str_to_unixtime` and `float()` are outside the model. A file is a `Document` (its root element and its `vdsk` elements), and the version is a natural. `str_to_unixtime` and `float()` are parameters returning `None` where Python raises.
- Parser.ParseDataSpec: takes the document's root element as given. The source reads the root through `firstChild` (ibm9510.py:48). When the first child is a comment, a processing instruction or a DOCTYPE, `getAttribute` raises and `parse_data` aborts; the model does not have this failure, because the XML parser is outside it.
- The file system: `os.listdir` and `os.path.isfile` become a sequence of entries with a regular-file flag.
- Float64 arithmetic is modelled with reals.
  - Rounding, infinities and NaN are not modelled.
  - A division by a zero timestamp difference gives an undefined rate (`None`), whether ClickHouse would give NaN, +inf or -inf.
  - Because all undefined rates are the same `None`, the final `GROUP BY` (ibm9510.py:176-182) merges rows that differ only in such a rate. ClickHouse keeps them apart when one rate is +inf and another -inf (or NaN). Example: rows of one series at t=90 (value 0), then t=100 with values 1, 2 and 0.5. In that order, the t=100 rows get the rates 0.1, (2-1)/0 = +inf and (0.5-2)/0 = -inf. ClickHouse writes four rows; the model merges the last two and writes three. Several values at one timestamp arise when distinct values are sampled together, e.g. several `vdsk` elements without an `id` fall into one series with the volume `""`.
- UInt32 column widths: timestamps and versions are unbounded naturals. Values above 2^32-1 are not truncated.
- ClickHouse evaluates `runningDifference` per data block; the model assumes the ordered result forms a single block.
- The output order of `GROUP BY` is unspecified in ClickHouse; the model emits groups in order of first appearance. The statements above that concern order depend only on the `ORDER BY`.
- Ties in the `ORDER BY` key (same series and timestamp, different values) keep an order the model fixes. The same holds for which tied row `runningDifference` sees first.
- Concurrent runs on the same tables are not modelled.
- Etl.RunSpec: failing ClickHouse statements are not modelled, so its "completes exactly when every file parses" holds only when they all succeed. In particular, `TableName(hostname)` is pasted unquoted into `CREATE TEMPORARY TABLE` (ibm9510.py:65, 247). When it is empty (a hostname ending in `-`) or otherwise not a valid identifier, the source aborts before fetching any file, while `Etl.Run` still completes. Identifier validity is a property of ClickHouse's SQL grammar, which this model does not include.
- Transform.RatesStayWithinSeries: requires every staged series to have history. Without it, the first sample of a new series is differenced across series, as `Examples.CrossSeriesExample` shows.

=== FILE: aggregate.dfy ===
/** The three GROUP BY queries of `update_data`, as functions over
    sequences of rows. SQL leaves the output order of a GROUP BY open; these
    functions emit groups in order of first appearance. */
module Aggregate {
  import opened Records

  /** Position of the first row of series `k`, or `|xs|` if none. */
  function SeriesIndex(xs: seq<Row>, k: Series): (i: nat)
    ensures i <= |xs|
    ensures i < |xs| ==> SeriesOf(xs[i]) == k
    ensures forall j :: 0 <= j < i ==> SeriesOf(xs[j]) != k
    decreases |xs|
  {
    if |xs| == 0 then 0
    else if SeriesOf(xs[0]) == k then 0
    else 1 + SeriesIndex(xs[1..], k)
  }

  /** Position of the first row of sample `k`, or `|xs|` if none. */
  function SampleIndex(xs: seq<Row>, k: Sample): (i: nat)
    ensures i <= |xs|
    ensures i < |xs| ==> SampleOf(xs[i]) == k
    ensures forall j :: 0 <= j < i ==> SampleOf(xs[j]) != k
    decreases |xs|
  {
    if |xs| == 0 then 0
    else if SampleOf(xs[0]) == k then 0
    else 1 + SampleIndex(xs[1..], k)
  }

  function Min(a: real, b: real): real { if a <= b then a else b }

  function Max(a: nat, b: nat): nat { if a >= b then a else b }

  // ---------------------------------------------------------------------
  // Baseline: SELECT metric, hostname, volumename, 0 timestamp,
  //   min(value) value, max(version) version ... GROUP BY the series.

  /** The baseline row a series starts with when its first row is `r`. */
  function Open(r: Row): Row {
    Row(r.metric, r.hostname, r.volume, 0, r.value, r.version)
  }

  /** Folds `r` into the baseline row `b` of the same series. */
  function Absorb(b: Row, r: Row): Row {
    b.(value := Min(b.value, r.value), version := Max(b.version, r.version))
  }

  function AddToBaseline(acc: seq<Row>, r: Row): seq<Row> {
    var i := SeriesIndex(acc, SeriesOf(r));
    if i == |acc| then acc + [Open(r)] else acc[i := Absorb(acc[i], r)]
  }

  function Baseline(src: seq<Row>): seq<Row>
    decreases |src|
  {
    if |src| == 0 then []
    else AddToBaseline(Baseline(src[..|src| - 1]), src[|src| - 1])
  }

  /** No two rows belong to the same series. */
  ghost predicate OnePerSeries(b: seq<Row>) {
    forall i, j :: 0 <= i < j < |b| ==> SeriesOf(b[i]) != SeriesOf(b[j])
  }

  /** Every series of `src` has a row in `b`. */
  ghost predicate CoversSeries(b: seq<Row>, src: seq<Row>) {
    forall r :: r in src ==> exists i :: 0 <= i < |b| && SeriesOf(b[i]) == SeriesOf(r)
  }

  /** Each row of `b` has a value no greater, and a version no smaller, than
      every row of its series in `src`. */
  ghost predicate Extremal(b: seq<Row>, src: seq<Row>) {
    forall i, r :: 0 <= i < |b| && r in src && SeriesOf(r) == SeriesOf(b[i]) ==>
      b[i].value <= r.value && r.version <= b[i].version
  }

  /** The values the rows of series `s` carry in `src`, in order. */
  function ValuesOf(src: seq<Row>, s: Series): seq<real>
    decreases |src|
  {
    if |src| == 0 then []
    else
      var last := src[|src| - 1];
      ValuesOf(src[..|src| - 1], s) + (if SeriesOf(last) == s then [last.value] else [])
  }

  /** The versions the rows of series `s` carry in `src`, in order. */
  function VersionsOf(src: seq<Row>, s: Series): seq<nat>
    decreases |src|
  {
    if |src| == 0 then []
    else
      var last := src[|src| - 1];
      VersionsOf(src[..|src| - 1], s) + (if SeriesOf(last) == s then [last.version] else [])
  }

  lemma ObservedAppend(src: seq<Row>, r: Row, s: Series)
    ensures ValuesOf(src + [r], s) == ValuesOf(src, s) + (if SeriesOf(r) == s then [r.value] else [])
    ensures VersionsOf(src + [r], s) == VersionsOf(src, s) + (if SeriesOf(r) == s then [r.version] else [])
  {
    assert (src + [r])[..|src|] == src;
  }

  /** A value is listed for a series exactly when some row of that series
      carries it. */
  lemma {:induction false} ValuesOfMembership(src: seq<Row>, s: Series, v: real)
    ensures v in ValuesOf(src, s) <==> exists r :: r in src && SeriesOf(r) == s && r.value == v
    decreases |src|
  {
    if |src| > 0 {
      var init := src[..|src| - 1];
      ValuesOfMembership(init, s, v);
      assert src == init + [src[|src| - 1]];
    }
  }

  /** A version is listed for a series exactly when some row of that series
      carries it. */
  lemma {:induction false} VersionsOfMembership(src: seq<Row>, s: Series, v: nat)
    ensures v in VersionsOf(src, s) <==> exists r :: r in src && SeriesOf(r) == s && r.version == v
    decreases |src|
  {
    if |src| > 0 {
      var init := src[..|src| - 1];
      VersionsOfMembership(init, s, v);
      assert src == init + [src[|src| - 1]];
    }
  }

  /** Each row's value and version were observed in its series in `src`. */
  ghost predicate Observed(b: seq<Row>, src: seq<Row>) {
    forall i :: 0 <= i < |b| ==>
      && b[i].value in ValuesOf(src, SeriesOf(b[i]))
      && b[i].version in VersionsOf(src, SeriesOf(b[i]))
  }

  /** One row per series of `src`, at timestamp 0, whose value is the least
      value and whose version is the greatest version observed for that
      series. */
  ghost predicate IsBaselineOf(b: seq<Row>, src: seq<Row>) {
    && OnePerSeries(b)
    && (forall i :: 0 <= i < |b| ==> b[i].timestamp == 0)
    && CoversSeries(b, src)
    && Extremal(b, src)
    && Observed(b, src)
  }

  lemma OpenSeriesCovers(acc: seq<Row>, src: seq<Row>, r: Row)
    requires CoversSeries(acc, src)
    ensures CoversSeries(acc + [Open(r)], src + [r])
  {
    var src', res := src + [r], acc + [Open(r)];
    forall x | x in src'
      ensures exists k :: 0 <= k < |res| && SeriesOf(res[k]) == SeriesOf(x)
    {
      if x == r {
        assert SeriesOf(res[|acc|]) == SeriesOf(x);
      } else {
        assert x in src;
        var k :| 0 <= k < |acc| && SeriesOf(acc[k]) == SeriesOf(x);
        assert SeriesOf(res[k]) == SeriesOf(x);
      }
    }
  }

  lemma OpenSeriesExtremal(acc: seq<Row>, src: seq<Row>, r: Row)
    requires CoversSeries(acc, src) && Extremal(acc, src)
    requires forall j :: 0 <= j < |acc| ==> SeriesOf(acc[j]) != SeriesOf(r)
    ensures Extremal(acc + [Open(r)], src + [r])
  {
    var src', res := src + [r], acc + [Open(r)];
    forall k, x | 0 <= k < |res| && x in src' && SeriesOf(x) == SeriesOf(res[k])
      ensures res[k].value <= x.value && x.version <= res[k].version
    {
      if k < |acc| {
        assert res[k] == acc[k];
        assert x in src;
      } else if x != r {
        assert false;
      }
    }
  }

  lemma OpenSeriesObserved(acc: seq<Row>, src: seq<Row>, r: Row)
    requires Observed(acc, src)
    ensures Observed(acc + [Open(r)], src + [r])
  {
    var src', res := src + [r], acc + [Open(r)];
    forall k | 0 <= k < |res|
      ensures res[k].value in ValuesOf(src', SeriesOf(res[k]))
      ensures res[k].version in VersionsOf(src', SeriesOf(res[k]))
    {
      ObservedAppend(src, r, SeriesOf(res[k]));
      if k < |acc| {
        assert res[k] == acc[k];
      }
    }
  }

  lemma OpenSeriesStep(acc: seq<Row>, src: seq<Row>, r: Row)
    requires IsBaselineOf(acc, src)
    requires forall j :: 0 <= j < |acc| ==> SeriesOf(acc[j]) != SeriesOf(r)
    ensures IsBaselineOf(acc + [Open(r)], src + [r])
  {
    OpenSeriesCovers(acc, src, r);
    OpenSeriesExtremal(acc, src, r);
    OpenSeriesObserved(acc, src, r);
  }

  lemma AbsorbCovers(acc: seq<Row>, src: seq<Row>, r: Row, i: nat)
    requires CoversSeries(acc, src)
    requires i < |acc| && SeriesOf(acc[i]) == SeriesOf(r)
    ensures CoversSeries(acc[i := Absorb(acc[i], r)], src + [r])
  {
    var src', res := src + [r], acc[i := Absorb(acc[i], r)];
    forall x | x in src'
      ensures exists k :: 0 <= k < |res| && SeriesOf(res[k]) == SeriesOf(x)
    {
      if x == r {
        assert SeriesOf(res[i]) == SeriesOf(x);
      } else {
        assert x in src;
        var k :| 0 <= k < |acc| && SeriesOf(acc[k]) == SeriesOf(x);
        assert SeriesOf(res[k]) == SeriesOf(x);
      }
    }
  }

  lemma AbsorbExtremal(acc: seq<Row>, src: seq<Row>, r: Row, i: nat)
    requires OnePerSeries(acc) && Extremal(acc, src)
    requires i < |acc| && SeriesOf(acc[i]) == SeriesOf(r)
    ensures Extremal(acc[i := Absorb(acc[i], r)], src + [r])
  {
    var src', res := src + [r], acc[i := Absorb(acc[i], r)];
    forall k, x | 0 <= k < |res| && x in src' && SeriesOf(x) == SeriesOf(res[k])
      ensures res[k].value <= x.value && x.version <= res[k].version
    {
      if k != i {
        assert res[k] == acc[k];
        if x == r {
          assert false;
        }
      } else if x != r {
        assert x in src;
      }
    }
  }

  lemma AbsorbObserved(acc: seq<Row>, src: seq<Row>, r: Row, i: nat)
    requires Observed(acc, src)
    requires i < |acc| && SeriesOf(acc[i]) == SeriesOf(r)
    ensures Observed(acc[i := Absorb(acc[i], r)], src + [r])
  {
    var src', res := src + [r], acc[i := Absorb(acc[i], r)];
    forall k | 0 <= k < |res|
      ensures res[k].value in ValuesOf(src', SeriesOf(res[k]))
      ensures res[k].version in VersionsOf(src', SeriesOf(res[k]))
    {
      ObservedAppend(src, r, SeriesOf(acc[k]));
      assert SeriesOf(res[k]) == SeriesOf(acc[k]);
    }
  }

  lemma AddToBaselineStep(acc: seq<Row>, src: seq<Row>, r: Row)
    requires IsBaselineOf(acc, src)
    ensures IsBaselineOf(AddToBaseline(acc, r), src + [r])
  {
    var i := SeriesIndex(acc, SeriesOf(r));
    if i == |acc| {
      OpenSeriesStep(acc, src, r);
    } else {
      var res := acc[i := Absorb(acc[i], r)];
      AbsorbCovers(acc, src, r, i);
      AbsorbExtremal(acc, src, r, i);
      AbsorbObserved(acc, src, r, i);
      assert OnePerSeries(res) by {
        forall k | 0 <= k < |res|
          ensures SeriesOf(res[k]) == SeriesOf(acc[k])
        {
        }
      }
    }
  }

  /** The baseline query yields exactly one row per series of its source,
      at timestamp 0, carrying the least value and the greatest version of
      that series, each of them observed in the source. */
  lemma {:induction false} BaselineSpec(src: seq<Row>)
    ensures IsBaselineOf(Baseline(src), src)
    decreases |src|
  {
    if |src| > 0 {
      var init := src[..|src| - 1];
      BaselineSpec(init);
      AddToBaselineStep(Baseline(init), init, src[|src| - 1]);
      assert init + [src[|src| - 1]] == src;
    }
  }

  // ---------------------------------------------------------------------
  // Version dedup: SELECT metric, hostname, volumename, timestamp, value,
  //   max(version) version ... GROUP BY every column but the version.

  /** Of two rows of one sample, the one with the greater version. */
  function Prefer(a: Row, r: Row): Row {
    if a.version < r.version then r else a
  }

  function AddToDedup(acc: seq<Row>, r: Row): seq<Row> {
    var i := SampleIndex(acc, SampleOf(r));
    if i == |acc| then acc + [r] else acc[i := Prefer(acc[i], r)]
  }

  function VersionDedup(rows: seq<Row>): seq<Row>
    decreases |rows|
  {
    if |rows| == 0 then []
    else AddToDedup(VersionDedup(rows[..|rows| - 1]), rows[|rows| - 1])
  }

  /** The versions the rows of sample `k` carry in `rows`, in order. */
  function SampleVersions(rows: seq<Row>, k: Sample): seq<nat>
    decreases |rows|
  {
    if |rows| == 0 then []
    else
      var last := rows[|rows| - 1];
      SampleVersions(rows[..|rows| - 1], k) + (if SampleOf(last) == k then [last.version] else [])
  }

  lemma SampleVersionsAppend(rows: seq<Row>, r: Row, k: Sample)
    ensures SampleVersions(rows + [r], k)
            == SampleVersions(rows, k) + (if SampleOf(r) == k then [r.version] else [])
  {
    assert (rows + [r])[..|rows|] == rows;
  }

  /** A version is listed for a sample exactly when some row of that sample
      carries it. */
  lemma {:induction false} SampleVersionsMembership(rows: seq<Row>, k: Sample, v: nat)
    ensures v in SampleVersions(rows, k) <==> exists r :: r in rows && SampleOf(r) == k && r.version == v
    decreases |rows|
  {
    if |rows| > 0 {
      var init := rows[..|rows| - 1];
      SampleVersionsMembership(init, k, v);
      assert rows == init + [rows[|rows| - 1]];
    }
  }

  /** No two rows share metric, hostname, volume, timestamp and value. */
  ghost predicate OnePerSample(d: seq<Row>) {
    forall i, j :: 0 <= i < j < |d| ==> SampleOf(d[i]) != SampleOf(d[j])
  }

  /** Every row of `d` is a row of `rows`: its version is one that its
      sample carries in `rows`. */
  ghost predicate Drawn(d: seq<Row>, rows: seq<Row>) {
    forall i :: 0 <= i < |d| ==> d[i].version in SampleVersions(rows, SampleOf(d[i]))
  }

  /** Every row of `rows` has a row of its sample in `d` whose version is at
      least its own. */
  ghost predicate Dominated(d: seq<Row>, rows: seq<Row>) {
    forall r :: r in rows ==>
      exists i :: 0 <= i < |d| && SampleOf(d[i]) == SampleOf(r) && r.version <= d[i].version
  }

  /** One row per distinct sample of `rows`: a row of `rows` whose version
      is the greatest among the rows of that sample. */
  ghost predicate IsVersionDedupOf(d: seq<Row>, rows: seq<Row>) {
    && OnePerSample(d)
    && Drawn(d, rows)
    && Dominated(d, rows)
  }

  lemma NewSampleDominated(acc: seq<Row>, rows: seq<Row>, r: Row)
    requires Dominated(acc, rows)
    ensures Dominated(acc + [r], rows + [r])
  {
    var rows', res := rows + [r], acc + [r];
    forall x | x in rows'
      ensures exists i :: 0 <= i < |res| && SampleOf(res[i]) == SampleOf(x) && x.version <= res[i].version
    {
      if x == r {
        assert res[|acc|] == r;
      } else {
        assert x in rows;
        var i :| 0 <= i < |acc| && SampleOf(acc[i]) == SampleOf(x) && x.version <= acc[i].version;
        assert res[i] == acc[i];
      }
    }
  }

  lemma NewSampleDrawn(acc: seq<Row>, rows: seq<Row>, r: Row)
    requires Drawn(acc, rows)
    ensures Drawn(acc + [r], rows + [r])
  {
    var res := acc + [r];
    forall k | 0 <= k < |res|
      ensures res[k].version in SampleVersions(rows + [r], SampleOf(res[k]))
    {
      SampleVersionsAppend(rows, r, SampleOf(res[k]));
      if k < |acc| {
        assert res[k] == acc[k];
      }
    }
  }

  lemma NewSampleStep(acc: seq<Row>, rows: seq<Row>, r: Row)
    requires IsVersionDedupOf(acc, rows)
    requires forall j :: 0 <= j < |acc| ==> SampleOf(acc[j]) != SampleOf(r)
    ensures IsVersionDedupOf(acc + [r], rows + [r])
  {
    NewSampleDominated(acc, rows, r);
    NewSampleDrawn(acc, rows, r);
  }

  lemma SameSampleDominated(acc: seq<Row>, rows: seq<Row>, r: Row, i: nat)
    requires Dominated(acc, rows)
    requires i < |acc| && SampleOf(acc[i]) == SampleOf(r)
    ensures Dominated(acc[i := Prefer(acc[i], r)], rows + [r])
  {
    var rows', res := rows + [r], acc[i := Prefer(acc[i], r)];
    forall x | x in rows'
      ensures exists j :: 0 <= j < |res| && SampleOf(res[j]) == SampleOf(x) && x.version <= res[j].version
    {
      if x == r {
        assert SampleOf(res[i]) == SampleOf(x) && x.version <= res[i].version;
      } else {
        assert x in rows;
        var j :| 0 <= j < |acc| && SampleOf(acc[j]) == SampleOf(x) && x.version <= acc[j].version;
        assert SampleOf(res[j]) == SampleOf(x) && x.version <= res[j].version;
      }
    }
  }

  lemma SameSampleDrawn(acc: seq<Row>, rows: seq<Row>, r: Row, i: nat)
    requires Drawn(acc, rows)
    requires i < |acc| && SampleOf(acc[i]) == SampleOf(r)
    ensures Drawn(acc[i := Prefer(acc[i], r)], rows + [r])
  {
    var res := acc[i := Prefer(acc[i], r)];
    forall k | 0 <= k < |res|
      ensures res[k].version in SampleVersions(rows + [r], SampleOf(res[k]))
    {
      SampleVersionsAppend(rows, r, SampleOf(acc[k]));
      assert SampleOf(res[k]) == SampleOf(acc[k]);
    }
  }

  lemma SameSampleOnePer(acc: seq<Row>, r: Row, i: nat)
    requires OnePerSample(acc)
    requires i < |acc| && SampleOf(acc[i]) == SampleOf(r)
    ensures OnePerSample(acc[i := Prefer(acc[i], r)])
  {
    var res := acc[i := Prefer(acc[i], r)];
    forall k | 0 <= k < |res|
      ensures SampleOf(res[k]) == SampleOf(acc[k])
    {
    }
  }

  lemma SameSampleStep(acc: seq<Row>, rows: seq<Row>, r: Row, i: nat)
    requires IsVersionDedupOf(acc, rows)
    requires i < |acc| && SampleOf(acc[i]) == SampleOf(r)
    ensures IsVersionDedupOf(acc[i := Prefer(acc[i], r)], rows + [r])
  {
    SameSampleDominated(acc, rows, r, i);
    SameSampleDrawn(acc, rows, r, i);
    SameSampleOnePer(acc, r, i);
  }

  lemma AddToDedupStep(acc: seq<Row>, rows: seq<Row>, r: Row)
    requires IsVersionDedupOf(acc, rows)
    ensures IsVersionDedupOf(AddToDedup(acc, r), rows + [r])
  {
    var i := SampleIndex(acc, SampleOf(r));
    if i == |acc| {
      NewSampleStep(acc, rows, r);
    } else {
      SameSampleStep(acc, rows, r, i);
    }
  }

  /** The version dedup query keeps one row per distinct (metric, hostname,
      volumename, timestamp, value): a row of its input whose version is the
      greatest among that sample's rows. */
  lemma {:induction false} VersionDedupSpec(rows: seq<Row>)
    ensures IsVersionDedupOf(VersionDedup(rows), rows)
    decreases |rows|
  {
    if |rows| > 0 {
      var init := rows[..|rows| - 1];
      VersionDedupSpec(init);
      AddToDedupStep(VersionDedup(init), init, rows[|rows| - 1]);
      assert init + [rows[|rows| - 1]] == rows;
    }
  }

  /** The sample keys of `d`, in order. */
  function Samples(d: seq<Row>): (k: seq<Sample>)
    ensures |k| == |d|
  {
    seq(|d|, i requires 0 <= i < |d| => SampleOf(d[i]))
  }

  lemma AddKnownSample(acc: seq<Row>, r: Row, j: nat)
    requires j < |acc| && SampleOf(acc[j]) == SampleOf(r)
    ensures Samples(AddToDedup(acc, r)) == Samples(acc)
  {
    var i := SampleIndex(acc, SampleOf(r));
    assert i <= j;
    var res := acc[i := Prefer(acc[i], r)];
    forall k | 0 <= k < |acc|
      ensures Samples(res)[k] == Samples(acc)[k]
    {
    }
  }

  lemma ReingestStep(rows: seq<Row>, init: seq<Row>, r: Row)
    requires Samples(VersionDedup(rows + init)) == Samples(VersionDedup(rows))
    requires exists x :: x in rows && SampleOf(x) == SampleOf(r)
    ensures Samples(AddToDedup(VersionDedup(rows + init), r)) == Samples(VersionDedup(rows))
  {
    var acc, d := VersionDedup(rows + init), VersionDedup(rows);
    var x :| x in rows && SampleOf(x) == SampleOf(r);
    VersionDedupSpec(rows);
    var j :| 0 <= j < |d| && SampleOf(d[j]) == SampleOf(x) && x.version <= d[j].version;
    assert Samples(acc)[j] == Samples(d)[j];
    AddKnownSample(acc, r, j);
  }

  /** Re-ingesting samples that are already staged, whatever their
      versions, adds no row to the version dedup and keeps its samples in
      place. */
  lemma {:induction false} ReingestKeepsSamples(rows: seq<Row>, again: seq<Row>)
    requires forall r :: r in again ==> exists x :: x in rows && SampleOf(x) == SampleOf(r)
    ensures Samples(VersionDedup(rows + again)) == Samples(VersionDedup(rows))
    ensures |VersionDedup(rows + again)| == |VersionDedup(rows)|
    decreases |again|
  {
    if |again| == 0 {
      assert rows + again == rows;
    } else {
      var init := again[..|again| - 1];
      var r := again[|again| - 1];
      forall y | y in init
        ensures exists x :: x in rows && SampleOf(x) == SampleOf(y)
      {
        assert y in again;
      }
      ReingestKeepsSamples(rows, init);
      assert (rows + again)[..|rows + again| - 1] == rows + init;
      assert r in again;
      ReingestStep(rows, init, r);
    }
  }

  // ---------------------------------------------------------------------
  // GROUP BY every selected column: duplicate rows collapse into one.

  ghost predicate NoDuplicates<T>(xs: seq<T>) {
    forall i, j :: 0 <= i < j < |xs| ==> xs[i] != xs[j]
  }

  function Distinct<T(==)>(xs: seq<T>): seq<T>
    decreases |xs|
  {
    if |xs| == 0 then []
    else
      var d := Distinct(xs[..|xs| - 1]);
      var x := xs[|xs| - 1];
      if x in d then d else d + [x]
  }

  /** `Distinct` keeps every element once and adds nothing. */
  lemma {:induction false} DistinctSpec<T>(xs: seq<T>)
    ensures NoDuplicates(Distinct(xs))
    ensures forall x :: x in Distinct(xs) <==> x in xs
    decreases |xs|
  {
    if |xs| > 0 {
      var init := xs[..|xs| - 1];
      DistinctSpec(init);
      assert xs == init + [xs[|xs| - 1]];
    }
  }
}

=== FILE: delta.dfy ===
/** The rate query of `update_data`:
    `runningDifference(value) / runningDifference(timestamp) AS delta`
    over the sorted rows, then `GROUP BY` every output column
    `HAVING timestamp > 0`. */
module Delta {
  import opened Wrappers
  import opened Records
  import opened Aggregate

  /** ClickHouse `runningDifference`: 0 for the first row, and each later
      row minus the row before it. The whole sorted result is one block. */
  function RunningDifference(xs: seq<real>): (d: seq<real>)
    ensures |d| == |xs|
  {
    seq(|xs|, i requires 0 <= i < |xs| => if i == 0 then 0.0 else xs[i] - xs[i - 1])
  }

  function Sum(xs: seq<real>): real
    decreases |xs|
  {
    if |xs| == 0 then 0.0 else Sum(xs[..|xs| - 1]) + xs[|xs| - 1]
  }

  /** Summing the running differences recovers the series from its first
      element: the running difference loses nothing but that element. */
  lemma {:induction false} RunningDifferenceTelescopes(xs: seq<real>, k: nat)
    requires k < |xs|
    ensures RunningDifference(xs)[0] == 0.0
    ensures xs[0] + Sum(RunningDifference(xs)[1..k + 1]) == xs[k]
  {
    if k > 0 {
      RunningDifferenceTelescopes(xs, k - 1);
      var d := RunningDifference(xs);
      assert d[1..k + 1][..k - 1] == d[1..k];
    }
  }

  /** Float division of the two differences; `None` where the time
      difference is 0 (NaN or infinity in ClickHouse). */
  function Ratio(num: real, den: real): Option<real> {
    if den == 0.0 then None else Some(num / den)
  }

  function Values(s: seq<Row>): (v: seq<real>)
    ensures |v| == |s|
  {
    seq(|s|, i requires 0 <= i < |s| => s[i].value)
  }

  function Timestamps(s: seq<Row>): (t: seq<real>)
    ensures |t| == |s|
  {
    seq(|s|, i requires 0 <= i < |s| => s[i].timestamp as real)
  }

  /** The inner SELECT: each row with its rate in place of its value. */
  function Deltas(s: seq<Row>): seq<DeltaRow> {
    var dv := RunningDifference(Values(s));
    var dt := RunningDifference(Timestamps(s));
    seq(|s|, i requires 0 <= i < |s| =>
      DeltaRow(s[i].metric, s[i].hostname, s[i].volume, s[i].timestamp,
               Ratio(dv[i], dt[i]), s[i].version))
  }

  /** The rate of row `i`: its value and timestamp against those of row
      `i - 1`, whatever series that row belongs to. */
  function RateAgainstPrevious(s: seq<Row>, i: nat): Option<real>
    requires 0 < i < |s|
  {
    Ratio(s[i].value - s[i - 1].value, s[i].timestamp as real - s[i - 1].timestamp as real)
  }

  /** Row `i` of the rate query keeps the identity columns and version of
      sorted row `i`; its rate is undefined for the first row (0/0) and is
      otherwise taken against the immediately preceding row. */
  lemma DeltasSpec(s: seq<Row>)
    ensures |Deltas(s)| == |s|
    ensures |s| > 0 ==> Deltas(s)[0].delta == None
    ensures forall i :: 0 < i < |s| ==> Deltas(s)[i].delta == RateAgainstPrevious(s, i)
    ensures forall i :: 0 <= i < |s| ==>
              && Deltas(s)[i].metric == s[i].metric
              && Deltas(s)[i].hostname == s[i].hostname
              && Deltas(s)[i].volume == s[i].volume
              && Deltas(s)[i].timestamp == s[i].timestamp
              && Deltas(s)[i].version == s[i].version
  {
  }

  function KeepPositive(ds: seq<DeltaRow>): seq<DeltaRow>
    decreases |ds|
  {
    if |ds| == 0 then []
    else
      var last := ds[|ds| - 1];
      KeepPositive(ds[..|ds| - 1]) + (if last.timestamp > 0 then [last] else [])
  }

  lemma {:induction false} KeepPositiveSpec(ds: seq<DeltaRow>)
    requires NoDuplicates(ds)
    ensures NoDuplicates(KeepPositive(ds))
    ensures forall o :: o in KeepPositive(ds) <==> o in ds && o.timestamp > 0
    decreases |ds|
  {
    if |ds| > 0 {
      var init := ds[..|ds| - 1];
      KeepPositiveSpec(init);
      assert ds == init + [ds[|ds| - 1]];
    }
  }

  /** The outer query: `GROUP BY` all six columns, `HAVING timestamp > 0`. */
  function Written(ds: seq<DeltaRow>): seq<DeltaRow> {
    KeepPositive(Distinct(ds))
  }

  /** The written rows are exactly the distinct rate rows with a positive
      timestamp, each once. */
  lemma WrittenSpec(ds: seq<DeltaRow>)
    ensures NoDuplicates(Written(ds))
    ensures forall o :: o in Written(ds) <==> o in ds && o.timestamp > 0
  {
    DistinctSpec(ds);
    KeepPositiveSpec(Distinct(ds));
  }
}

=== FILE: etl.dfy ===
/** `main`: parse every counter file and stage its rows in the per-host
    staging table, then run `update_data`.

    Fetching the files, opening them and reading the clock are I/O: a run
    receives the parsed documents of the files `ListFiles(dir, listing,
    "Nv_stats_")` selects, in that order, each with the clock reading its
    `parse_data` call took. */
module Etl {
  import opened Wrappers
  import opened Records
  import opened Parser
  import opened Names
  import opened Aggregate
  import opened Transform

  /** One counter file as one `parse_data` call sees it. */
  datatype Snapshot = Snapshot(doc: Document, version: nat)

  /** Parses the files in order; `None` if any file fails to parse. */
  function LoadAll(snaps: seq<Snapshot>, hostname: string,
                   toUnixTime: string -> Option<nat>,
                   toFloat: string -> Option<real>): Option<seq<Row>>
    decreases |snaps|
  {
    if |snaps| == 0 then Some([])
    else
      var rows :- ParseData(snaps[0].doc, hostname, snaps[0].version, toUnixTime, toFloat);
      var rest :- LoadAll(snaps[1..], hostname, toUnixTime, toFloat);
      Some(rows + rest)
  }

  /** The number of volume elements over all files. */
  function VolumeCount(snaps: seq<Snapshot>): nat
    decreases |snaps|
  {
    if |snaps| == 0 then 0 else |snaps[0].doc.volumes| + VolumeCount(snaps[1..])
  }

  /** Every file parses. */
  ghost predicate AllParse(snaps: seq<Snapshot>, toUnixTime: string -> Option<nat>,
                           toFloat: string -> Option<real>)
  {
    forall k :: 0 <= k < |snaps| ==> Parses(snaps[k].doc, toUnixTime, toFloat)
  }

  /** Loading succeeds exactly when every file parses, and then stages six
      rows per volume element, all labelled with the host. */
  lemma {:induction false} LoadAllSpec(snaps: seq<Snapshot>, hostname: string,
                                       toUnixTime: string -> Option<nat>,
                                       toFloat: string -> Option<real>)
    ensures LoadAll(snaps, hostname, toUnixTime, toFloat).Some? <==> AllParse(snaps, toUnixTime, toFloat)
    ensures LoadAll(snaps, hostname, toUnixTime, toFloat).Some? ==>
              var rows := LoadAll(snaps, hostname, toUnixTime, toFloat).value;
              && |rows| == 6 * VolumeCount(snaps)
              && forall r :: r in rows ==> r.hostname == hostname
    decreases |snaps|
  {
    if |snaps| > 0 {
      var s := snaps[0];
      ParseDataSpec(s.doc, hostname, s.version, toUnixTime, toFloat);
      LoadAllSpec(snaps[1..], hostname, toUnixTime, toFloat);
      if ParseData(s.doc, hostname, s.version, toUnixTime, toFloat).Some? {
        var rows := ParseData(s.doc, hostname, s.version, toUnixTime, toFloat).value;
        forall r | r in rows
          ensures r.hostname == hostname
        {
          var i :| 0 <= i < |rows| && rows[i] == r;
        }
      }
      if AllParse(snaps, toUnixTime, toFloat) {
        assert AllParse(snaps[1..], toUnixTime, toFloat) by {
          forall k | 0 <= k < |snaps[1..]|
            ensures Parses(snaps[1..][k].doc, toUnixTime, toFloat)
          {
            assert snaps[1..][k] == snaps[k + 1];
          }
        }
      }
      if AllParse(snaps[1..], toUnixTime, toFloat) && Parses(s.doc, toUnixTime, toFloat) {
        forall k | 0 <= k < |snaps|
          ensures Parses(snaps[k].doc, toUnixTime, toFloat)
        {
          if k > 0 {
            assert snaps[k] == snaps[1..][k - 1];
          }
        }
      }
    }
  }

  /** One run of `main` against the history table and the rate table. The
      staging table is a fresh temporary table named after the host label.
      `None` is a run aborted by a parse error: `update_data` is not reached
      and neither durable table changes. A ClickHouse statement that fails,
      such as the `CREATE TABLE` for a name unusable as an identifier, is
      not a failure this function models. */
  function Run(hostname: string, snaps: seq<Snapshot>, toUnixTime: string -> Option<nat>,
               toFloat: string -> Option<real>,
               history: seq<Row>, rates: seq<DeltaRow>): Option<Tables>
  {
    match LoadAll(snaps, hostname, toUnixTime, toFloat)
    case None => None
    case Some(rows) => Some(UpdateData(Tables(TableName(hostname), rows, history, rates)))
  }

  /** Assuming every ClickHouse statement succeeds, a run completes
      exactly when every file parses. A completed run
      stages the loaded rows, six per volume, followed by exactly the
      history baseline, in the table named after the host; it leaves the
      history table alone and only appends to the rate table, distinct
      rows with positive timestamps. */
  lemma RunSpec(hostname: string, snaps: seq<Snapshot>, toUnixTime: string -> Option<nat>,
                toFloat: string -> Option<real>,
                history: seq<Row>, rates: seq<DeltaRow>)
    ensures Run(hostname, snaps, toUnixTime, toFloat, history, rates).Some? <==> AllParse(snaps, toUnixTime, toFloat)
    ensures Run(hostname, snaps, toUnixTime, toFloat, history, rates).Some? ==>
              var t := Run(hostname, snaps, toUnixTime, toFloat, history, rates).value;
              && t.stagingTable == TableName(hostname)
              && t.history == history
              && var n := |LoadAll(snaps, hostname, toUnixTime, toFloat).value|;
              && n == 6 * VolumeCount(snaps)
              && t.staging[..n] == LoadAll(snaps, hostname, toUnixTime, toFloat).value
              && IsBaselineOf(t.staging[n..], history)
              && t.rates[..|rates|] == rates
              && NoDuplicates(t.rates[|rates|..])
              && (forall o :: o in t.rates[|rates|..] ==> o.timestamp > 0)
  {
    LoadAllSpec(snaps, hostname, toUnixTime, toFloat);
    if LoadAll(snaps, hostname, toUnixTime, toFloat).Some? {
      var rows := LoadAll(snaps, hostname, toUnixTime, toFloat).value;
      UpdateDataSpec(Tables(TableName(hostname), rows, history, rates));
    }
  }
}

=== FILE: examples.dfy ===
/** Worked cases of `update_data` on small tables. */
module Examples {
  import opened Wrappers
  import opened StringOrder
  import opened Records
  import opened Aggregate
  import opened Sorting
  import opened Delta
  import opened Transform

  /** Two rows of one series: the baseline keeps the least value (7, from
      version 9) and the greatest version, at timestamp 0. */
  lemma MinWinsExample()
    ensures Baseline([Row("ro", "h", "v", 100, 10.0, 5), Row("ro", "h", "v", 120, 7.0, 9)])
            == [Row("ro", "h", "v", 0, 7.0, 9)]
  {
  }

  /** Samples at t=100 (value 10) and t=110 (value 50) of one series with no
      history: the rate 4.0 is written at t=110, and the t=100 row is
      written too, with the undefined first-row rate. */
  lemma FirstRowExample()
    ensures DeltaRows([Row("ro", "h", "v", 100, 10.0, 1), Row("ro", "h", "v", 110, 50.0, 1)])
            == [DeltaRow("ro", "h", "v", 100, None, 1), DeltaRow("ro", "h", "v", 110, Some(4.0), 1)]
  {
    var a, b := Row("ro", "h", "v", 100, 10.0, 1), Row("ro", "h", "v", 110, 50.0, 1);
    assert [a, b][..1] == [a];
    assert VersionDedup([a]) == [a];
    assert SampleIndex([a], SampleOf(b)) == 1;
    assert VersionDedup([a, b]) == [a, b];
    assert [a, b][1..] == [b];
    assert KeyLe(a, b);
    assert [b][1..] == [];
    assert SortByKey([b]) == [b];
    assert Insert([b], a) == [a, b];
    assert SortByKey([a, b]) == [a, b];
    assert Ordered([a, b]) == [a, b];
    var ds := [DeltaRow("ro", "h", "v", 100, None, 1), DeltaRow("ro", "h", "v", 110, Some(4.0), 1)];
    assert Values([a, b]) == [10.0, 50.0];
    assert Timestamps([a, b]) == [100.0, 110.0];
    assert Deltas([a, b]) == ds;
    assert ds[..1] == [ds[0]];
    assert Distinct(ds) == ds;
    assert KeepPositive(ds) == ds;
  }

  const SampleA := Row("ro", "h", "v", 100, 10.0, 1)
  const SampleB := Row("ro", "h", "v", 110, 50.0, 1)
  const HistoryRow := Row("ro", "h", "v", 90, 4.0, 0)
  const BaselineRow := Row("ro", "h", "v", 0, 4.0, 0)

  lemma AnchorOrdered()
    ensures Ordered([SampleA, SampleB] + Baseline([HistoryRow])) == [BaselineRow, SampleA, SampleB]
  {
    var a, b, z := SampleA, SampleB, BaselineRow;
    assert [HistoryRow][..0] == [];
    assert Baseline([HistoryRow]) == [z];
    var staged := [a, b] + [z];
    assert staged == [a, b, z];
    assert staged[..2] == [a, b];
    assert [a, b][..1] == [a];
    assert VersionDedup([a]) == [a];
    assert SampleIndex([a], SampleOf(b)) == 1;
    assert VersionDedup([a, b]) == [a, b];
    assert SampleIndex([a, b], SampleOf(z)) == 2;
    assert VersionDedup(staged) == [a, b, z];
    assert [a, b, z][1..] == [b, z];
    assert [b, z][1..] == [z];
    assert [z][1..] == [];
    assert SortByKey([z]) == [z];
    assert Insert([z], b) == [z, b];
    assert SortByKey([b, z]) == [z, b];
    assert Insert([b], a) == [a, b];
    assert Insert([z, b], a) == [z, a, b];
  }

  lemma AnchorWritten()
    ensures Written(Deltas([BaselineRow, SampleA, SampleB]))
            == [DeltaRow("ro", "h", "v", 100, Some(0.06), 1), DeltaRow("ro", "h", "v", 110, Some(4.0), 1)]
  {
    var s := [BaselineRow, SampleA, SampleB];
    assert Values(s) == [4.0, 10.0, 50.0];
    assert Timestamps(s) == [0.0, 100.0, 110.0];
    var ds := [DeltaRow("ro", "h", "v", 0, None, 0), DeltaRow("ro", "h", "v", 100, Some(0.06), 1),
               DeltaRow("ro", "h", "v", 110, Some(4.0), 1)];
    assert Deltas(s) == ds;
    assert ds[..1] == [ds[0]];
    assert ds[..2] == [ds[0], ds[1]];
    assert Distinct(ds[..1]) == [ds[0]];
    assert Distinct(ds[..2]) == [ds[0], ds[1]];
    assert Distinct(ds) == ds;
    assert KeepPositive(ds[..1]) == [];
    assert KeepPositive(ds[..2]) == [ds[1]];
    assert KeepPositive(ds) == ds[1..];
  }

  /** The same samples after the history baseline (value 4 for this series)
      has been staged: the first sample is differenced against the
      baseline, (10 - 4) / (100 - 0), and the baseline row is not written. */
  lemma BaselineAnchorExample()
    ensures UpdateData(Tables("v", [SampleA, SampleB], [HistoryRow], [])).rates
            == [DeltaRow("ro", "h", "v", 100, Some(0.06), 1), DeltaRow("ro", "h", "v", 110, Some(4.0), 1)]
  {
    AnchorOrdered();
    AnchorWritten();
  }

  /** Two series without history: the first sample of the second series is
      differenced against the last sample of the first, (30 - 10) / (200 -
      100), and written. */
  lemma CrossSeriesExample()
    ensures DeltaRows([Row("ro", "h", "v", 100, 10.0, 1), Row("wo", "h", "v", 200, 30.0, 1)])
            == [DeltaRow("ro", "h", "v", 100, None, 1), DeltaRow("wo", "h", "v", 200, Some(0.2), 1)]
  {
    var a, c := Row("ro", "h", "v", 100, 10.0, 1), Row("wo", "h", "v", 200, 30.0, 1);
    assert [a, c][..1] == [a];
    assert VersionDedup([a]) == [a];
    assert SampleIndex([a], SampleOf(c)) == 1;
    assert VersionDedup([a, c]) == [a, c];
    assert [a, c][1..] == [c];
    assert [c][1..] == [];
    assert SortByKey([c]) == [c];
    assert "ro"[1..] == "o";
    assert LexLt("ro", "wo");
    assert KeyLe(a, c);
    assert Insert([c], a) == [a, c];
    assert Ordered([a, c]) == [a, c];
    var ds := [DeltaRow("ro", "h", "v", 100, None, 1), DeltaRow("wo", "h", "v", 200, Some(0.2), 1)];
    assert Values([a, c]) == [10.0, 30.0];
    assert Timestamps([a, c]) == [100.0, 200.0];
    assert Deltas([a, c]) == ds;
    assert ds[..1] == [ds[0]];
    assert Distinct(ds) == ds;
    assert KeepPositive(ds) == ds;
  }
}

=== FILE: listing.dfy ===
/** `get_list_files(path, word)`: the regular files of a directory whose
    name contains `word`, as joined paths, in listing order.

    The directory listing is given as a sequence of entries; whether an
    entry is a regular file (`os.path.isfile`) is recorded in the entry. */
module Listing {

  datatype Entry = Entry(name: string, isFile: bool)

  /** `os.path.join(dir, name)` for two POSIX components. */
  function PathJoin(dir: string, name: string): string {
    if |name| > 0 && name[0] == '/' then name
    else if |dir| == 0 || dir[|dir| - 1] == '/' then dir + name
    else dir + "/" + name
  }

  /** Python's `w in s` on strings, by trying every start position. */
  predicate Contains(s: string, w: string)
    decreases |s|
  {
    w <= s || (|s| > 0 && Contains(s[1..], w))
  }

  /** `w` occurs in `s` starting at position `i`. */
  ghost predicate OccursAt(s: string, w: string, i: int) {
    0 <= i <= |s| - |w| && s[i..i + |w|] == w
  }

  /** `w` occurs in `s` at some position. */
  ghost predicate Occurs(s: string, w: string) {
    exists i :: OccursAt(s, w, i)
  }

  lemma {:induction false} ContainsIffOccurs(s: string, w: string)
    ensures Contains(s, w) <==> Occurs(s, w)
    decreases |s|
  {
    if w <= s {
      assert OccursAt(s, w, 0);
    } else if |s| > 0 {
      ContainsIffOccurs(s[1..], w);
      if Occurs(s[1..], w) {
        var i :| OccursAt(s[1..], w, i);
        assert s[i + 1..i + 1 + |w|] == s[1..][i..i + |w|];
        assert OccursAt(s, w, i + 1);
      }
      if Occurs(s, w) {
        var i :| OccursAt(s, w, i);
        assert i != 0;
        assert s[1..][i - 1..i - 1 + |w|] == s[i..i + |w|];
        assert OccursAt(s[1..], w, i - 1);
      }
    }
  }

  /** The entry passes the filter `word in f and os.path.isfile(pf)`. */
  predicate Selected(e: Entry, word: string) {
    Contains(e.name, word) && e.isFile
  }

  function ListFiles(dir: string, listing: seq<Entry>, word: string): seq<string>
    decreases |listing|
  {
    if |listing| == 0 then []
    else
      var last := listing[|listing| - 1];
      ListFiles(dir, listing[..|listing| - 1], word)
        + (if Selected(last, word) then [PathJoin(dir, last.name)] else [])
  }

  /** The listing is filtered piecewise: the result for a concatenated
      listing is the concatenation of the results, so order is kept. */
  lemma {:induction false} ListFilesAppend(dir: string, a: seq<Entry>, b: seq<Entry>, word: string)
    ensures ListFiles(dir, a + b, word) == ListFiles(dir, a, word) + ListFiles(dir, b, word)
    decreases |b|
  {
    if |b| == 0 {
      assert a + b == a;
    } else {
      assert (a + b)[..|a + b| - 1] == a + b[..|b| - 1];
      ListFilesAppend(dir, a, b[..|b| - 1], word);
    }
  }

  /** A path is listed exactly when some selected entry joins to it. */
  lemma {:induction false} ListFilesMembership(dir: string, listing: seq<Entry>, word: string, p: string)
    ensures p in ListFiles(dir, listing, word)
            <==> exists e :: e in listing && Contains(e.name, word) && e.isFile && p == PathJoin(dir, e.name)
    decreases |listing|
  {
    if |listing| > 0 {
      var init := listing[..|listing| - 1];
      ListFilesMembership(dir, init, word, p);
      assert listing == init + [listing[|listing| - 1]];
      if exists e :: e in listing && Contains(e.name, word) && e.isFile && p == PathJoin(dir, e.name) {
        var e :| e in listing && Contains(e.name, word) && e.isFile && p == PathJoin(dir, e.name);
        if e != listing[|listing| - 1] {
          assert e in init;
        }
      }
    }
  }

  /** With `word = ''`, as `rm_files` calls it, every regular file is listed
      and nothing else. */
  lemma ListFilesEmptyWord(dir: string, listing: seq<Entry>, p: string)
    ensures p in ListFiles(dir, listing, "")
            <==> exists e :: e in listing && e.isFile && p == PathJoin(dir, e.name)
  {
    ListFilesMembership(dir, listing, "", p);
  }
}

=== FILE: names.dfy ===
/** The per-host staging table name, `hostname.split('-')[-1]`. */
module Names {

  /** Python's `s.split(sep)` for a one-character separator: always at least
      one part; an empty string splits into one empty part. */
  function Split(s: string, sep: char): (parts: seq<string>)
    ensures |parts| >= 1
    decreases |s|
  {
    if |s| == 0 then [""]
    else
      var rest := Split(s[1..], sep);
      if s[0] == sep then [""] + rest
      else [[s[0]] + rest[0]] + rest[1..]
  }

  /** `sep.join(parts)`. */
  function JoinWith(parts: seq<string>, sep: char): string
    decreases |parts|
  {
    if |parts| == 0 then ""
    else if |parts| == 1 then parts[0]
    else parts[0] + [sep] + JoinWith(parts[1..], sep)
  }

  /** Joining the parts back restores the string, and no part holds the
      separator. */
  lemma {:induction false} SplitJoinRoundTrip(s: string, sep: char)
    ensures JoinWith(Split(s, sep), sep) == s
    ensures forall i :: 0 <= i < |Split(s, sep)| ==> sep !in Split(s, sep)[i]
    decreases |s|
  {
    if |s| > 0 {
      SplitJoinRoundTrip(s[1..], sep);
      var rest := Split(s[1..], sep);
      if s[0] == sep {
        assert Split(s, sep)[1..] == rest;
      } else {
        var parts := Split(s, sep);
        assert parts[1..] == rest[1..];
        if |rest| > 1 {
          assert JoinWith(rest, sep) == rest[0] + [sep] + JoinWith(rest[1..], sep);
        }
        forall i | 1 <= i < |parts|
          ensures parts[i] == rest[i]
        {
        }
        assert s == [s[0]] + s[1..];
      }
    }
  }

  /** A string without the separator is its own single part. */
  lemma {:induction false} SplitWithoutSeparator(s: string, sep: char)
    requires sep !in s
    ensures Split(s, sep) == [s]
    decreases |s|
  {
    if |s| > 0 {
      assert sep !in s[1..];
      SplitWithoutSeparator(s[1..], sep);
      assert s == [s[0]] + s[1..];
    }
  }

  /** The last part closes the joined string, and is preceded by the
      separator when there are several parts. */
  lemma {:induction false} JoinEndsWithLast(parts: seq<string>, sep: char)
    requires |parts| >= 1
    ensures var j := JoinWith(parts, sep);
            var last := parts[|parts| - 1];
            && |last| <= |j|
            && j[|j| - |last|..] == last
            && (|parts| > 1 ==> |last| < |j| && j[|j| - |last| - 1] == sep)
    decreases |parts|
  {
    if |parts| > 1 {
      JoinEndsWithLast(parts[1..], sep);
      var tail := JoinWith(parts[1..], sep);
      var j := JoinWith(parts, sep);
      assert j == (parts[0] + [sep]) + tail;
      var last := parts[|parts| - 1];
      assert last == parts[1..][|parts[1..]| - 1];
      assert j[|j| - |last|..] == tail[|tail| - |last|..];
      if |parts| == 2 {
        assert tail == last;
        assert j[|j| - |last| - 1] == sep;
      } else {
        assert j[|j| - |last| - 1] == tail[|tail| - |last| - 1];
      }
    }
  }

  /** `hostname.split('-')[-1]` (ibm9510.py line 247). */
  function TableName(hostname: string): string {
    var parts := Split(hostname, '-');
    parts[|parts| - 1]
  }

  /** The table name is the longest suffix of the host label without a
      dash: it holds no dash, it ends the label, and either it is the whole
      label or a dash stands right before it. A label without a dash names
      its own table. */
  lemma TableNameSpec(hostname: string)
    ensures var t := TableName(hostname);
            && '-' !in t
            && |t| <= |hostname|
            && hostname[|hostname| - |t|..] == t
            && (|t| < |hostname| ==> hostname[|hostname| - |t| - 1] == '-')
            && ('-' !in hostname ==> t == hostname)
  {
    var parts := Split(hostname, '-');
    SplitJoinRoundTrip(hostname, '-');
    JoinEndsWithLast(parts, '-');
    if '-' !in hostname {
      SplitWithoutSeparator(hostname, '-');
    }
    if |parts| == 1 {
      assert JoinWith(parts, '-') == parts[0];
    }
  }
}

=== FILE: parser.dfy ===
/** `parse_data`: one counter snapshot document becomes six rows per
    volume element.

    The XML parser is abstracted away: a document is its root element and
    its `vdsk` elements in document order, each a map of attribute names to
    attribute text. The two conversions are partial parameters: `toUnixTime`
    is `str_to_unixtime`, `None` where `strptime` raises, and `toFloat` is
    Python's `float()`, `None` where it raises. */
module Parser {
  import opened Wrappers
  import opened Records

  datatype Element = Element(attributes: map<string, string>)

  datatype Document = Document(root: Element, volumes: seq<Element>)

  /** The tracked metric codes, in the order the rows are produced. */
  const MetricCodes: seq<string> := ["ro", "wo", "rb", "wb", "rl", "wl"]

  /** DOM `getAttribute`: the empty string when the attribute is absent. */
  function GetAttribute(e: Element, name: string): string {
    if name in e.attributes then e.attributes[name] else ""
  }

  /** The rows of one volume for the given metric codes; `None` as soon as
      one attribute does not convert. */
  function ParseMetrics(codes: seq<string>, vd: Element, hostname: string, timestamp: nat,
                        version: nat, toFloat: string -> Option<real>): Option<seq<Row>>
  {
    if |codes| == 0 then Some([])
    else
      var v :- toFloat(GetAttribute(vd, codes[0]));
      var rest :- ParseMetrics(codes[1..], vd, hostname, timestamp, version, toFloat);
      Some([Row(codes[0], hostname, GetAttribute(vd, "id"), timestamp, v, version)] + rest)
  }

  function ParseVolumes(vds: seq<Element>, hostname: string, timestamp: nat,
                        version: nat, toFloat: string -> Option<real>): Option<seq<Row>>
  {
    if |vds| == 0 then Some([])
    else
      var first :- ParseMetrics(MetricCodes, vds[0], hostname, timestamp, version, toFloat);
      var rest :- ParseVolumes(vds[1..], hostname, timestamp, version, toFloat);
      Some(first + rest)
  }

  /** The text of the root element's `timestamp` attribute. */
  function RootTimestamp(doc: Document): string {
    GetAttribute(doc.root, "timestamp")
  }

  /** `parse_data(file, hostname)` with the clock reading `version`: the
      root timestamp is converted first, then the volumes. */
  function ParseData(doc: Document, hostname: string, version: nat,
                     toUnixTime: string -> Option<nat>,
                     toFloat: string -> Option<real>): Option<seq<Row>>
  {
    var timestamp :- toUnixTime(RootTimestamp(doc));
    ParseVolumes(doc.volumes, hostname, timestamp, version, toFloat)
  }

  /** The root timestamp converts and every tracked attribute of every
      volume converts to a number. */
  ghost predicate Parses(doc: Document, toUnixTime: string -> Option<nat>,
                         toFloat: string -> Option<real>)
  {
    toUnixTime(RootTimestamp(doc)).Some? && AllNumeric(doc.volumes, toFloat)
  }

  /** Every tracked attribute of every volume converts to a number. */
  ghost predicate AllNumeric(vds: seq<Element>, toFloat: string -> Option<real>) {
    forall k, m :: 0 <= k < |vds| && 0 <= m < |MetricCodes| ==>
      toFloat(GetAttribute(vds[k], MetricCodes[m])).Some?
  }

  /** Row `i` is metric `i % 6` of volume `i / 6`, stamped with the shared
      fields. */
  ghost predicate WellFormedRows(rows: seq<Row>, vds: seq<Element>, hostname: string,
                                 timestamp: nat, version: nat, toFloat: string -> Option<real>)
  {
    && |rows| == |MetricCodes| * |vds|
    && forall i :: 0 <= i < |rows| ==>
         && rows[i].metric == MetricCodes[i % 6]
         && rows[i].hostname == hostname
         && rows[i].volume == GetAttribute(vds[i / 6], "id")
         && rows[i].timestamp == timestamp
         && rows[i].version == version
         && toFloat(GetAttribute(vds[i / 6], MetricCodes[i % 6])) == Some(rows[i].value)
  }

  lemma {:induction false} ParseMetricsSpec(codes: seq<string>, vd: Element, hostname: string,
                                            timestamp: nat, version: nat,
                                            toFloat: string -> Option<real>)
    ensures ParseMetrics(codes, vd, hostname, timestamp, version, toFloat).Some?
            <==> forall m :: 0 <= m < |codes| ==> toFloat(GetAttribute(vd, codes[m])).Some?
    ensures ParseMetrics(codes, vd, hostname, timestamp, version, toFloat).Some? ==>
              var rows := ParseMetrics(codes, vd, hostname, timestamp, version, toFloat).value;
              && |rows| == |codes|
              && forall m :: 0 <= m < |codes| ==>
                   && rows[m].metric == codes[m]
                   && rows[m].hostname == hostname
                   && rows[m].volume == GetAttribute(vd, "id")
                   && rows[m].timestamp == timestamp
                   && rows[m].version == version
                   && toFloat(GetAttribute(vd, codes[m])) == Some(rows[m].value)
    decreases |codes|
  {
    if |codes| > 0 {
      ParseMetricsSpec(codes[1..], vd, hostname, timestamp, version, toFloat);
      if toFloat(GetAttribute(vd, codes[0])).Some? {
        forall m | 0 < m < |codes|
          ensures codes[m] == codes[1..][m - 1]
        {
        }
      }
    }
  }

  /** The rows of the first volume followed by well-formed rows of the
      remaining volumes are well-formed rows of all volumes. */
  lemma WellFormedCons(first: seq<Row>, rest: seq<Row>, vds: seq<Element>, hostname: string,
                       timestamp: nat, version: nat, toFloat: string -> Option<real>)
    requires |vds| > 0 && |first| == |MetricCodes|
    requires forall m :: 0 <= m < |MetricCodes| ==>
               && first[m].metric == MetricCodes[m]
               && first[m].hostname == hostname
               && first[m].volume == GetAttribute(vds[0], "id")
               && first[m].timestamp == timestamp
               && first[m].version == version
               && toFloat(GetAttribute(vds[0], MetricCodes[m])) == Some(first[m].value)
    requires WellFormedRows(rest, vds[1..], hostname, timestamp, version, toFloat)
    ensures WellFormedRows(first + rest, vds, hostname, timestamp, version, toFloat)
  {
    var rows := first + rest;
    forall i | 0 <= i < |rows|
      ensures && rows[i].metric == MetricCodes[i % 6]
              && rows[i].hostname == hostname
              && rows[i].volume == GetAttribute(vds[i / 6], "id")
              && rows[i].timestamp == timestamp
              && rows[i].version == version
              && toFloat(GetAttribute(vds[i / 6], MetricCodes[i % 6])) == Some(rows[i].value)
    {
      if i < 6 {
        FirstBlock(i);
        assert rows[i] == first[i];
      } else {
        NextBlock(i);
        assert rows[i] == rest[i - 6];
        assert vds[i / 6] == vds[1..][(i - 6) / 6];
      }
    }
  }

  /** Positions of the first volume's block. */
  lemma FirstBlock(i: nat)
    requires i < 6
    ensures i / 6 == 0 && i % 6 == i
  {
  }

  /** Shifting a position by one block moves it to the next volume and
      keeps its metric. */
  lemma NextBlock(i: nat)
    requires i >= 6
    ensures i / 6 == (i - 6) / 6 + 1 && i % 6 == (i - 6) % 6
  {
  }

  lemma {:induction false} ParseVolumesSpec(vds: seq<Element>, hostname: string, timestamp: nat,
                                            version: nat, toFloat: string -> Option<real>)
    ensures ParseVolumes(vds, hostname, timestamp, version, toFloat).Some? <==> AllNumeric(vds, toFloat)
    ensures ParseVolumes(vds, hostname, timestamp, version, toFloat).Some? ==>
              WellFormedRows(ParseVolumes(vds, hostname, timestamp, version, toFloat).value,
                             vds, hostname, timestamp, version, toFloat)
    decreases |vds|
  {
    if |vds| > 0 {
      ParseMetricsSpec(MetricCodes, vds[0], hostname, timestamp, version, toFloat);
      ParseVolumesSpec(vds[1..], hostname, timestamp, version, toFloat);
      var head := ParseMetrics(MetricCodes, vds[0], hostname, timestamp, version, toFloat);
      var tail := ParseVolumes(vds[1..], hostname, timestamp, version, toFloat);
      if head.Some? && tail.Some? {
        assert ParseVolumes(vds, hostname, timestamp, version, toFloat) == Some(head.value + tail.value);
        WellFormedCons(head.value, tail.value, vds, hostname, timestamp, version, toFloat);
        assert AllNumeric(vds, toFloat);
      } else if head.None? {
        var m :| 0 <= m < |MetricCodes| && toFloat(GetAttribute(vds[0], MetricCodes[m])).None?;
        assert !AllNumeric(vds, toFloat);
      } else {
        var k, m :| 0 <= k < |vds[1..]| && 0 <= m < |MetricCodes|
                    && toFloat(GetAttribute(vds[1..][k], MetricCodes[m])).None?;
        assert vds[1..][k] == vds[k + 1];
      }
    }
  }

  /** `parse_data` fails exactly when the root timestamp is absent or not in
      the expected format, or some tracked attribute of some volume is absent
      or not numeric; otherwise it yields six rows per volume, volumes in
      document order and metrics in the order ro, wo, rb, wb, rl, wl, all
      carrying the converted root timestamp, the host label and the version. */
  lemma ParseDataSpec(doc: Document, hostname: string, version: nat,
                      toUnixTime: string -> Option<nat>, toFloat: string -> Option<real>)
    ensures ParseData(doc, hostname, version, toUnixTime, toFloat).Some?
            <==> Parses(doc, toUnixTime, toFloat)
    ensures ParseData(doc, hostname, version, toUnixTime, toFloat).Some? ==>
              WellFormedRows(ParseData(doc, hostname, version, toUnixTime, toFloat).value,
                             doc.volumes, hostname, toUnixTime(RootTimestamp(doc)).value,
                             version, toFloat)
  {
    match toUnixTime(RootTimestamp(doc))
    case None =>
    case Some(timestamp) =>
      ParseVolumesSpec(doc.volumes, hostname, timestamp, version, toFloat);
  }
}

=== FILE: records.dfy ===
/** The row shapes of the three tables the ETL run touches, and the sort key
    of the delta query.

    Every table has the columns (metric, hostname, volumename, timestamp,
    value, version); the delta destination stores the computed rate in place
    of `value`. */
module Records {
  import opened Wrappers
  import opened StringOrder

  /** One observation: metric code, host label, volume id, capture time in
      epoch seconds, the counter value and the ingestion version. */
  datatype Row = Row(metric: string, hostname: string, volume: string,
                     timestamp: nat, value: real, version: nat)

  /** A row of the delta destination. `delta` is `None` where the query
      divides by a zero time difference (ClickHouse yields NaN or infinity). */
  datatype DeltaRow = DeltaRow(metric: string, hostname: string, volume: string,
                               timestamp: nat, delta: Option<real>, version: nat)

  /** The grouping triple (metric, hostname, volumename): one time series. */
  datatype Series = Series(metric: string, hostname: string, volume: string)

  /** The version-dedup grouping key: every column except `version`. */
  datatype Sample = Sample(series: Series, timestamp: nat, value: real)

  function SeriesOf(r: Row): Series {
    Series(r.metric, r.hostname, r.volume)
  }

  function SampleOf(r: Row): Sample {
    Sample(SeriesOf(r), r.timestamp, r.value)
  }

  /** `ORDER BY metric ASC, hostname ASC, volumename ASC, timestamp ASC`:
      `a` may precede `b`. Rows equal on all four columns are tied. */
  predicate KeyLe(a: Row, b: Row) {
    || LexLt(a.metric, b.metric)
    || (a.metric == b.metric &&
        (|| LexLt(a.hostname, b.hostname)
         || (a.hostname == b.hostname &&
             (|| LexLt(a.volume, b.volume)
              || (a.volume == b.volume && a.timestamp <= b.timestamp)))))
  }

  /** Ascending by the four-column sort key. */
  ghost predicate Sorted(s: seq<Row>) {
    forall i, j :: 0 <= i < j < |s| ==> KeyLe(s[i], s[j])
  }

  lemma LexLtTransitive(a: string, b: string, c: string)
    requires LexLt(a, b) && LexLe(b, c)
    ensures LexLt(a, c)
  {
    LexLeTransitive(a, b, c);
    if a == c {
      LexLeAntisymmetric(a, b);
    }
  }

  lemma KeyLeTransitive(a: Row, b: Row, c: Row)
    requires KeyLe(a, b) && KeyLe(b, c)
    ensures KeyLe(a, c)
  {
    if a.metric != b.metric {
      if b.metric != c.metric {
        LexLtTransitive(a.metric, b.metric, c.metric);
      }
    } else if b.metric != c.metric {
    } else if a.hostname != b.hostname {
      if b.hostname != c.hostname {
        LexLtTransitive(a.hostname, b.hostname, c.hostname);
      }
    } else if b.hostname != c.hostname {
    } else if a.volume != b.volume {
      if b.volume != c.volume {
        LexLtTransitive(a.volume, b.volume, c.volume);
      }
    }
  }

  lemma KeyLeTotal(a: Row, b: Row)
    ensures KeyLe(a, b) || KeyLe(b, a)
  {
    LexLeTotal(a.metric, b.metric);
    LexLeTotal(a.hostname, b.hostname);
    LexLeTotal(a.volume, b.volume);
  }

  /** Within one series the sort key orders by timestamp alone. */
  lemma KeyLeWithinSeries(a: Row, b: Row)
    requires SeriesOf(a) == SeriesOf(b)
    ensures KeyLe(a, b) <==> a.timestamp <= b.timestamp
  {
  }

  /** A row sorted between two rows of one series belongs to that series. */
  lemma {:induction false} SandwichedInSeries(a: Row, b: Row, c: Row)
    requires KeyLe(a, b) && KeyLe(b, c)
    requires SeriesOf(a) == SeriesOf(c)
    ensures SeriesOf(b) == SeriesOf(a)
  {
    if a.metric != b.metric {
      LexLeAntisymmetric(a.metric, b.metric);
    } else if b.metric != c.metric {
      LexLeAntisymmetric(b.metric, c.metric);
    } else if a.hostname != b.hostname {
      LexLeAntisymmetric(a.hostname, b.hostname);
    } else if b.hostname != c.hostname {
      LexLeAntisymmetric(b.hostname, c.hostname);
    } else if a.volume != b.volume {
      LexLeAntisymmetric(a.volume, b.volume);
    } else if b.volume != c.volume {
      LexLeAntisymmetric(b.volume, c.volume);
    }
  }
}

=== FILE: sorting.dfy ===
/** `ORDER BY metric ASC, hostname ASC, volumename ASC, timestamp ASC` of the
    deduplicated rows, as an insertion sort. SQL fixes no order among rows
    tied on all four columns; this sort is one admissible choice. */
module Sorting {
  import opened Records

  /** Places `r` before the first row it may precede. */
  function Insert(s: seq<Row>, r: Row): seq<Row>
    decreases |s|
  {
    if |s| == 0 then [r]
    else if KeyLe(r, s[0]) then [r] + s
    else [s[0]] + Insert(s[1..], r)
  }

  function SortByKey(rows: seq<Row>): seq<Row>
    decreases |rows|
  {
    if |rows| == 0 then []
    else Insert(SortByKey(rows[1..]), rows[0])
  }

  lemma {:induction false} InsertPermutes(s: seq<Row>, r: Row)
    ensures multiset(Insert(s, r)) == multiset(s) + multiset{r}
    decreases |s|
  {
    if |s| > 0 && !KeyLe(r, s[0]) {
      InsertPermutes(s[1..], r);
      assert s == [s[0]] + s[1..];
    }
  }

  lemma {:induction false} InsertSorted(s: seq<Row>, r: Row)
    requires Sorted(s)
    ensures Sorted(Insert(s, r))
    decreases |s|
  {
    if |s| > 0 {
      if KeyLe(r, s[0]) {
        var res := [r] + s;
        forall i, j | 0 <= i < j < |res|
          ensures KeyLe(res[i], res[j])
        {
          if i == 0 && j > 1 {
            KeyLeTransitive(r, s[0], s[j - 1]);
          }
        }
      } else {
        KeyLeTotal(r, s[0]);
        InsertSorted(s[1..], r);
        InsertPermutes(s[1..], r);
        var tail := Insert(s[1..], r);
        var res := [s[0]] + tail;
        forall i, j | 0 <= i < j < |res|
          ensures KeyLe(res[i], res[j])
        {
          if i == 0 {
            var y := res[j];
            assert y in multiset(tail);
            assert y in multiset(s[1..]) || y == r;
            if y != r {
              var k :| 0 <= k < |s[1..]| && s[1..][k] == y;
              assert s[k + 1] == y;
            }
          }
        }
      }
    }
  }

  /** The sorted rows are a permutation of the input, ascending by the
      four-column key. */
  lemma {:induction false} SortByKeySpec(rows: seq<Row>)
    ensures Sorted(SortByKey(rows))
    ensures multiset(SortByKey(rows)) == multiset(rows)
    decreases |rows|
  {
    if |rows| > 0 {
      SortByKeySpec(rows[1..]);
      InsertSorted(SortByKey(rows[1..]), rows[0]);
      InsertPermutes(SortByKey(rows[1..]), rows[0]);
      assert rows == [rows[0]] + rows[1..];
    }
  }

  /** In a sorted sequence, a row later than a timestamp-0 row of its own
      series is immediately preceded by a row of that series. */
  lemma AnchoredPredecessor(s: seq<Row>, i: nat, j: nat)
    requires Sorted(s)
    requires i < |s| && j < |s|
    requires SeriesOf(s[j]) == SeriesOf(s[i]) && s[j].timestamp == 0 && s[i].timestamp > 0
    ensures i > 0 && SeriesOf(s[i - 1]) == SeriesOf(s[i])
  {
    if j > i {
      assert KeyLe(s[i], s[j]);
      KeyLeWithinSeries(s[i], s[j]);
    }
    assert j < i;
    if j < i - 1 {
      SandwichedInSeries(s[j], s[i - 1], s[i]);
    }
  }
}

=== FILE: string_order.dfy ===
/** The order ClickHouse uses for `String` columns in `ORDER BY`: byte-wise
    lexicographic comparison. On Unicode text, comparing UTF-8 bytes agrees
    with comparing code points, which is what `<` on `char` does.

    Dafny's own `<` on sequences means "proper prefix", so the order is
    defined here. */
module StringOrder {

  /** `a` sorts no later than `b`. */
  predicate LexLe(a: string, b: string)
    decreases |a|
  {
    |a| == 0 || (|b| > 0 && (a[0] < b[0] || (a[0] == b[0] && LexLe(a[1..], b[1..]))))
  }

  /** `a` sorts strictly before `b`. */
  predicate LexLt(a: string, b: string) {
    LexLe(a, b) && a != b
  }

  lemma {:induction false} LexLeAntisymmetric(a: string, b: string)
    requires LexLe(a, b) && LexLe(b, a)
    ensures a == b
    decreases |a|
  {
    if |a| > 0 {
      assert a[0] == b[0];
      LexLeAntisymmetric(a[1..], b[1..]);
      assert a == [a[0]] + a[1..];
      assert b == [b[0]] + b[1..];
    }
  }

  lemma {:induction false} LexLeTransitive(a: string, b: string, c: string)
    requires LexLe(a, b) && LexLe(b, c)
    ensures LexLe(a, c)
    decreases |a|
  {
    if |a| > 0 && a[0] == b[0] && b[0] == c[0] {
      LexLeTransitive(a[1..], b[1..], c[1..]);
    }
  }

  lemma {:induction false} LexLeTotal(a: string, b: string)
    ensures LexLe(a, b) || LexLe(b, a)
    decreases |a|
  {
    if |a| > 0 && |b| > 0 && a[0] == b[0] {
      LexLeTotal(a[1..], b[1..]);
    }
  }
}

=== FILE: transform.dfy ===
/** `update_data`: the baseline insert, the rate query and its write to the
    rate table, composed over an explicit snapshot of the three tables. */
module Transform {
  import opened Records
  import opened Aggregate
  import opened Sorting
  import opened Delta

  /** The tables one run touches: the per-host staging table, the history
      table `ibm9150c2` the baseline is read from, and the rate table
      `ibm9150d2`. */
  datatype Tables = Tables(stagingTable: string, staging: seq<Row>,
                           history: seq<Row>, rates: seq<DeltaRow>)

  /** The innermost subquery: deduplicated, then ordered. */
  function Ordered(staged: seq<Row>): seq<Row> {
    SortByKey(VersionDedup(staged))
  }

  /** The rows the second INSERT writes to the rate table. */
  function DeltaRows(staged: seq<Row>): seq<DeltaRow> {
    Written(Deltas(Ordered(staged)))
  }

  /** The first INSERT appends the history baseline to the staging table;
      the second appends the rates of the staging table to the rate table.
      `OPTIMIZE TABLE` is taken to leave the rate table's contents as they
      are; the engine of that table is not part of this model. */
  function UpdateData(t: Tables): Tables {
    var staged := t.staging + Baseline(t.history);
    t.(staging := staged, rates := t.rates + DeltaRows(staged))
  }

  /** `update_data` leaves the history table as it was, extends the staging
      table with exactly one baseline row per history series, and appends to
      the rate table distinct rows none of which has timestamp 0. */
  lemma UpdateDataSpec(t: Tables)
    ensures var u := UpdateData(t);
            && u.stagingTable == t.stagingTable
            && u.history == t.history
            && u.staging[..|t.staging|] == t.staging
            && IsBaselineOf(u.staging[|t.staging|..], t.history)
            && u.rates[..|t.rates|] == t.rates
            && NoDuplicates(u.rates[|t.rates|..])
            && (forall o :: o in u.rates[|t.rates|..] ==> o.timestamp > 0)
  {
    var u := UpdateData(t);
    var staged := t.staging + Baseline(t.history);
    BaselineSpec(t.history);
    assert u.staging[|t.staging|..] == Baseline(t.history);
    assert u.rates[|t.rates|..] == DeltaRows(staged);
    WrittenSpec(Deltas(Ordered(staged)));
  }

  /** Every row of `Ordered(staged)` is a row of `staged`. */
  lemma OrderedDrawn(staged: seq<Row>, i: nat)
    requires i < |Ordered(staged)|
    ensures Ordered(staged)[i] in staged
  {
    var d := VersionDedup(staged);
    VersionDedupSpec(staged);
    SortByKeySpec(d);
    assert Ordered(staged)[i] in multiset(d);
    var k :| 0 <= k < |d| && d[k] == Ordered(staged)[i];
    SampleVersionsMembership(staged, SampleOf(d[k]), d[k].version);
  }

  /** A row of `staged` has a row of its sample in `Ordered(staged)`. */
  lemma OrderedCovers(staged: seq<Row>, r: Row) returns (j: nat)
    requires r in staged
    ensures j < |Ordered(staged)| && SampleOf(Ordered(staged)[j]) == SampleOf(r)
  {
    var d := VersionDedup(staged);
    VersionDedupSpec(staged);
    SortByKeySpec(d);
    var m :| 0 <= m < |d| && SampleOf(d[m]) == SampleOf(r) && r.version <= d[m].version;
    assert d[m] in multiset(Ordered(staged));
    j :| 0 <= j < |Ordered(staged)| && Ordered(staged)[j] == d[m];
  }

  /** When every series of the staging table has history, each row of the
      ordered rate query with a positive timestamp follows a row of its own
      series: the baseline rows absorb the differences across series. */
  lemma AnchoredOrder(staging: seq<Row>, history: seq<Row>, i: nat)
    requires forall r :: r in staging ==> exists h :: h in history && SeriesOf(h) == SeriesOf(r)
    requires var s := Ordered(staging + Baseline(history)); i < |s| && s[i].timestamp > 0
    ensures var s := Ordered(staging + Baseline(history)); i > 0 && SeriesOf(s[i - 1]) == SeriesOf(s[i])
  {
    var b := Baseline(history);
    var staged := staging + b;
    var s := Ordered(staged);
    OrderedDrawn(staged, i);
    BaselineSpec(history);
    if s[i] !in staging {
      assert false;
    }
    var h :| h in history && SeriesOf(h) == SeriesOf(s[i]);
    var k :| 0 <= k < |b| && SeriesOf(b[k]) == SeriesOf(h);
    assert b[k] in staged;
    var j := OrderedCovers(staged, b[k]);
    SortByKeySpec(VersionDedup(staged));
    AnchoredPredecessor(s, i, j);
  }

  /** When every series of the staging table has history, every rate the
      run writes is computed from a row and the row right before it in the
      ordered result, and both rows belong to the same series. */
  lemma RatesStayWithinSeries(staging: seq<Row>, history: seq<Row>)
    requires forall r :: r in staging ==> exists h :: h in history && SeriesOf(h) == SeriesOf(r)
    ensures var s := Ordered(staging + Baseline(history));
            forall o :: o in DeltaRows(staging + Baseline(history)) ==>
              exists i :: 0 < i < |s| && SeriesOf(s[i - 1]) == SeriesOf(s[i])
                && o == DeltaRow(s[i].metric, s[i].hostname, s[i].volume, s[i].timestamp,
                                 RateAgainstPrevious(s, i), s[i].version)
  {
    var s := Ordered(staging + Baseline(history));
    var ds := Deltas(s);
    WrittenSpec(ds);
    DeltasSpec(s);
    forall o | o in DeltaRows(staging + Baseline(history))
      ensures exists i :: 0 < i < |s| && SeriesOf(s[i - 1]) == SeriesOf(s[i])
                && o == DeltaRow(s[i].metric, s[i].hostname, s[i].volume, s[i].timestamp,
                                 RateAgainstPrevious(s, i), s[i].version)
    {
      var i :| 0 <= i < |ds| && ds[i] == o;
      AnchoredOrder(staging, history, i);
    }
  }

  /** When the staged samples all carry real capture times, the timestamp-0
      rows of the ordered result are the baseline rows: each carries the
      least value and the greatest version its series has in the history
      table. So the first sample of a series is differenced against the
      series' historical minimum, over its full timestamp. */
  lemma ZeroRowsAreHistoryMinima(staging: seq<Row>, history: seq<Row>, i: nat)
    requires forall r :: r in staging ==> r.timestamp > 0
    requires var s := Ordered(staging + Baseline(history)); i < |s| && s[i].timestamp == 0
    ensures var s := Ordered(staging + Baseline(history));
            && s[i].value in ValuesOf(history, SeriesOf(s[i]))
            && s[i].version in VersionsOf(history, SeriesOf(s[i]))
            && forall h :: h in history && SeriesOf(h) == SeriesOf(s[i]) ==>
                 s[i].value <= h.value && h.version <= s[i].version
  {
    var b := Baseline(history);
    var s := Ordered(staging + b);
    OrderedDrawn(staging + b, i);
    BaselineSpec(history);
    var k :| 0 <= k < |b| && b[k] == s[i];
  }
}

=== FILE: wrappers.dfy ===
/** Failure-compatible Option, used for partial conversions and for quotients
    whose denominator is zero. */
module Wrappers {

  datatype Option<+T> = None | Some(value: T) {

    predicate IsFailure() {
      None?
    }

    function PropagateFailure<U>(): Option<U>
      requires None?
    {
      None
    }

    function Extract(): T
      requires Some?
    {
      value
    }
  }
}
